=== FILE: README.md ===
# Meeting lifecycle of the CRM backend, in Dafny

This project models the meetings component of a small CRM backend: the
`Meetings` record (title, description, start time, duration in minutes,
location, meeting type, status, optional deal and company, and a set of
participant contacts), the HTTP handlers that create, update, cancel, list,
retrieve, filter and count meetings, the e-mail notification each write
sends to participants, and the once-a-minute background job that marks
meetings whose end time has passed as completed.

The model is functional. The database is a value `Store.Db` (meetings by
id, contact e-mail addresses by contact id, next id to allocate). Each write
handler is a pure function from a database and a request to an `Outcome`: the
new database, the HTTP status code, the id it reports and the mail it would
hand to the mailer. Each read handler is a pure function from the database,
the request's parameters and the current time to what it answers: a `Lookup`
for one meeting, a sequence of `View`s for the listing, a `Filtered` result
for the filter, and a count for today's meetings. Time is an integer number of seconds. The current time, the
parsing of the request's ISO date string (`TimeInput`) and the rendering of a
time for an e-mail (`formatTime`) are parameters.

Modules and files:

- `meetings.dfy` (`Meetings`): the record, its choice constants and defaults,
  `end_time` and `is_upcoming`.
- `store.dfy` (`Store`): the database, the unique contact e-mail, the caller's
  contact lookup, and what deleting a deal, company or contact does to meetings.
- `listing.dfy` (`Listing`): ordering by start time.
- `sweeper.dfy` (`Sweeper`): the background job `update_past_meetings`.
- `notification.dfy` (`Notification`): `send_meeting_notification`.
- `participants.dfy` (`Participants`): how a request's participant list and the
  caller's own contact become the stored participant set.
- `api_write.dfy` (`MeetingWrites`, `MeetingWriteFacts`): `create`, `update`
  and `delete`, and facts about them.
- `api_read.dfy` (`MeetingReads`): `get_all_meetings`, `get_meeting`,
  `filter_meetings`, `today_count`.
- `lifecycle_facts.dfy` (`LifecycleFacts`): facts that connect writes, reads
  and the background job.
- `options.dfy`, `sets.dfy`: an `Option` type and two facts about finite sets.

Facts about the code that the model keeps:

- `update` writes any status, and `delete` cancels from any status, a
  completed meeting included. No transition is checked.
- `duration`, `status` and `meeting_type` are stored as given: the handlers
  check no range and no choice list.
- A date string that does not parse gives status 500.
- `today_count` counts over the UTC day of the current instant.
- The background job's candidate filter requires the start to be in the past,
  and its inner test requires the end to be strictly in the past.

Two places where the code as written defeats its evident intent are listed
under "## Findings". There the handlers and the job in this model follow the
intended behaviour. The code as written is modelled beside it
(`Participants.ReconcileAsWritten`, `Sweeper.UpdatePastMeetingsAsWritten`),
with lemmas that say exactly where the two agree.

## Model

| member | source | states |
|---|---|---|
| Meetings.NewMeeting | backend/meetings/models.py:18-27 | a record created with only a title and start time has duration 60, type in_person, status scheduled, empty description and location, no deal, company or participants, ends one hour after it starts, and is upcoming exactly when it starts in the future |
| Meetings.EndTimeAfterStart | backend/meetings/models.py:44-47 | the end time is the start plus duration minutes, so it is after the start exactly when the duration is positive |
| Meetings.TerminalNeverUpcoming | backend/meetings/models.py:39-42 | a completed or cancelled meeting is never upcoming |
| Meetings.UpcomingEarlier | backend/meetings/models.py:39-42 | a meeting upcoming at some time was upcoming at every earlier time |
| Store.CallerContact | backend/meetings/views.py:170 | the caller's contact, if any, is the one contact whose e-mail equals the caller's, unique because the contact table declares e-mail unique (backend/tasks/models.py:28); when none is found no contact has that e-mail |
| Store.RemoveDeal | backend/meetings/models.py:25 | deleting a deal keeps every meeting, clears the deal of exactly the meetings that referred to it and changes nothing else |
| Store.RemoveCompany | backend/meetings/models.py:26 | deleting a company keeps every meeting, clears the company of exactly the meetings that referred to it and changes nothing else |
| Store.RemoveContact | backend/meetings/models.py:27 | deleting a contact removes it from every participant set and from the contacts, keeps the database well formed and changes nothing else |
| Listing.FirstExists | backend/meetings/models.py:33-34 | every non-empty set of stored meetings has one listed first |
| Listing.First | backend/meetings/models.py:33-34 | the chosen member is in the set and listed no later than any other member |
| Listing.Order | backend/meetings/models.py:33-34 | the ordering holds each id of the set exactly once and lists them by start time, ties by id |
| Listing.StartsAscend | backend/meetings/models.py:33-34 | a sequence in listing order has non-decreasing start times |
| Listing.ListedByStart | backend/meetings/views.py:67 | the full listing has non-decreasing start times |
| Listing.ListsEveryMeeting | backend/meetings/views.py:67 | the full listing names every stored meeting exactly once |
| Listing.EarliestListedFirst | backend/meetings/models.py:33-34 | a meeting starting strictly before every other is listed first |
| Sweeper.Sweep | backend/meetings/tasks.py:15-25 | the job keeps every meeting, completes each scheduled or in-progress meeting whose start and end are both before now, and changes nothing else about any meeting |
| Sweeper.SweepChangesDue | backend/meetings/tasks.py:15-25 | the meetings whose status the job changes are exactly the due ones |
| Sweeper.SweepLeavesTerminal | backend/meetings/tasks.py:16 | completed and cancelled meetings are never touched |
| Sweeper.SweepLeavesCurrent | backend/meetings/tasks.py:17-23 | a meeting that has not started, or whose end is not yet past, is never touched |
| Sweeper.NothingDueAfterSweep | backend/meetings/tasks.py:15-25 | after a run nothing is left for a run at the same instant to do |
| Sweeper.SweepAbsorbs | backend/meetings/tasks.py:15-25 | a run followed by a later run gives the same table as the later run alone |
| Sweeper.SweepIdempotent | backend/meetings/tasks.py:15-25 | two runs at the same instant give the same table as one |
| Sweeper.SweepMonotone | backend/meetings/tasks.py:15-25 | a later run leaves at least the meetings completed that an earlier run leaves completed |
| Sweeper.SweptNotUpcoming | backend/meetings/tasks.py:22-24 | a meeting the job completes was not upcoming and is not upcoming afterwards |
| Sweeper.DueAmongStep | backend/meetings/tasks.py:20-26 | counting due meetings over one more id adds one exactly when that meeting is due |
| Sweeper.TickedIsSwept | backend/meetings/tasks.py:21-25 | applying the per-meeting step to every meeting gives the job's result |
| Sweeper.UpdatePastMeetings | backend/meetings/tasks.py:7-26 | the loop over the table produces the job's result and its counter equals the number of meetings whose status changed |
| Sweeper.InOrderTicksAll | backend/meetings/tasks.py:21-25 | when no visited candidate has an end outside the date-time range, the loop as written completes exactly the due meetings it visits and changes nothing else |
| Sweeper.AsWrittenIsSweepWhenRepresentable | backend/meetings/tasks.py:7-35 | when every candidate's end lies in the date-time range, the job as written gives the same table as the sweep |
| Sweeper.OverflowStopsLaterMeetings | backend/meetings/tasks.py:21-35 | a meeting whose end overflows, listed before a due meeting, keeps the job as written from completing that due meeting, which the sweep completes |
| Notification.Recipients | backend/meetings/views.py:18-19 | the recipients are exactly the non-empty e-mail addresses of the meeting's participants |
| Notification.SubjectRoundTrip | backend/meetings/views.py:28-44 | the subject line gives back the action and the meeting title |
| Notification.SentenceMentions | backend/meetings/views.py:35-45 | every message names the meeting's time, and a reschedule message also names the previous time |
| Notification.Compose | backend/meetings/views.py:16-56 | nothing is sent exactly when no participant has an e-mail address; otherwise the mail goes to those addresses, its subject gives back the action and title, its body is exactly the action's sentence followed by the location clause, which is empty when no location is set; the body names the new time (and the previous time of a reschedule) |
| Participants.IntIds | backend/meetings/views.py:178 | the kept ids are exactly the integer entries, booleans read as 0 and 1 |
| Participants.Reconcile | backend/meetings/views.py:172-178 | the stored set is the integer entries plus the caller's contact, which is always included |
| Participants.NonIntegerIgnored | backend/meetings/views.py:178 | a non-integer entry never changes the stored set |
| Participants.AsWrittenAgrees | backend/meetings/views.py:172-178 | the handler's append-then-filter gives the intended set unless a float entry equals the caller's contact id |
| Participants.FloatCallerLeftOut | backend/meetings/views.py:172-178 | when a float entry equals the caller's contact id, the handler's set is the intended set less at most the caller, and it holds the caller exactly when an integer entry names the caller |
| Participants.AsWrittenDropsCaller | backend/meetings/views.py:172-178 | with entries [9.0] and caller contact 9 the handler stores no participant while the intended set is {9}; with [5, 9.0] it stores {5} while the intended set is {5, 9} |
| MeetingWrites.Create | backend/meetings/views.py:142-204 | a missing date or other required field gives 400, an unparseable date gives 500 and both leave the database unchanged; on success the meeting is stored under a fresh id with the given values and defaults, participants as reconciled, and the created notice composed for it |
| MeetingWrites.Update | backend/meetings/views.py:208-280 | an unknown id gives 404 and an unparseable date 500, both without change; on success exactly the fields present in the request change, other meetings are untouched, and the notice is a reschedule notice with the old time when the date was given and an update notice otherwise |
| MeetingWrites.Cancel | backend/meetings/views.py:284-306 | an unknown id gives 404 without change; otherwise the meeting stays stored with status cancelled whatever its previous status, nothing else changes, and the cancellation notice describes the meeting as it was |
| MeetingWriteFacts.EmptyPatchKeepsStore | backend/meetings/views.py:217-265 | an update with no fields leaves the database as it was and sends an update notice |
| MeetingWriteFacts.LocationOnlyPatch | backend/meetings/views.py:233-234 | an update of the location alone changes only that field of that meeting |
| MeetingWriteFacts.UpdateIdempotent | backend/meetings/views.py:217-260 | repeating the same successful update leaves the database as the first one did |
| MeetingWriteFacts.UpdateSubjectTellsReschedule | backend/meetings/views.py:262-265 | the notice subject of a successful update reads created exactly when the request carried a date |
| MeetingWriteFacts.CancelIdempotent | backend/meetings/views.py:284-292 | cancelling twice leaves the database as cancelling once |
| MeetingWriteFacts.CreateAddsCaller | backend/meetings/views.py:170-181 | a create with participants [5, 7] by the caller whose contact is 9 stores participants {5, 7, 9} |
| MeetingWriteFacts.CreateStoresUncheckedValues | backend/meetings/views.py:156-166 | a status, type and negative duration outside the choices are stored as given |
| MeetingWriteFacts.CancelAfterCompletion | backend/meetings/views.py:286-292 | a completed meeting can be cancelled |
| MeetingWriteFacts.TextEntriesWithoutCallerStoreNone | backend/meetings/views.py:172-181 | when the caller has no contact and every entry is text, create succeeds with no participants and update succeeds and clears the set |
| MeetingWriteFacts.CreateMatchesCodeAsWritten | backend/meetings/views.py:170-181 | when no float entry equals the caller's contact id, a create with a valid date and every required field succeeds and stores exactly the participant set the code as written stores |
| MeetingWriteFacts.UpdateMatchesCodeAsWritten | backend/meetings/views.py:248-259 | when no float entry equals the caller's contact id, an update carrying a participant list succeeds and stores exactly the set the code as written stores |
| MeetingReads.ParticipantRefs | backend/meetings/views.py:71-75 | the listed participants are the stored contact ids plus the current_user marker exactly when the caller has a contact that is not already a participant |
| MeetingReads.GetMeeting | backend/meetings/views.py:105-135 | an unknown id gives not found; otherwise the view holds the stored meeting, its participant ids without a marker, and its upcoming flag |
| MeetingReads.Views | backend/meetings/views.py:70-94 | one view per id, in the same order, each built from the stored meeting |
| MeetingReads.ViewIds | backend/meetings/views.py:70-94 | the views carry exactly the ids they were built from |
| MeetingReads.ViewsInListingOrder | backend/meetings/views.py:67-94 | views built from ids in listing order are in ascending start time |
| MeetingReads.ListedCoversTable | backend/meetings/views.py:67-94 | the listing has one view for each stored meeting and no other |
| MeetingReads.ListedInOrder | backend/meetings/views.py:67 | the listing is in ascending start time |
| MeetingReads.GetAllMeetings | backend/meetings/views.py:65-97 | every stored meeting is listed exactly once, in ascending start time, each view holding the stored meeting, its participants with the caller's marker, and its upcoming flag |
| MeetingReads.MarkerOnlyDifference | backend/meetings/views.py:71-75 | the listing's participants differ from the stored set only by the current_user marker |
| MeetingReads.ListingAgreesWithLookup | backend/meetings/views.py:65-135 | each listed meeting is the one retrieval by its id returns, apart from the marker |
| MeetingReads.FilterMeetings | backend/meetings/views.py:335-373 | a non-numeric deal or company parameter fails with 500; otherwise the rows are exactly the meetings matching every given parameter, each once, in ascending start time |
| MeetingReads.FilterRowsMatch | backend/meetings/views.py:343-348 | a query whose id parameters are numbers succeeds and every row it returns matches it |
| MeetingReads.MatchingIsConjunction | backend/meetings/views.py:343-348 | the meetings a query selects are exactly those its deal, company and status constraints each select alone, an unset constraint selecting everything; with the filter's own contract this makes the filtered rows that intersection |
| MeetingReads.UnmatchedStatusIsEmpty | backend/meetings/views.py:347-348 | filtering by a status no meeting has returns no rows |
| MeetingReads.Midnight | backend/meetings/views.py:312-313 | the start of the day is a whole day boundary at or before now and less than a day before it |
| MeetingReads.TodayCount | backend/meetings/views.py:315-319 | the count never exceeds the number of meetings |
| MeetingReads.TodayCountZero | backend/meetings/views.py:315-319 | the count is zero exactly when no scheduled meeting starts during today |
| MeetingReads.TodayCountAdd | backend/meetings/views.py:315-319 | adding a meeting under a new id raises the count by one exactly when that meeting is scheduled and starts today |
| LifecycleFacts.CancelledStillRetrievable | backend/meetings/views.py:286-292 | after a cancel, retrieval still finds the meeting, cancelled and not upcoming |
| LifecycleFacts.CreateRaisesTodayCount | backend/meetings/views.py:156-166 | creating a scheduled meeting that starts today raises today's count by one |
| LifecycleFacts.SweepNeverRaisesTodayCount | backend/meetings/tasks.py:15-25 | the background job never raises today's count |
| LifecycleFacts.SweptMeetingsAreNotUpcoming | backend/meetings/tasks.py:22-24 | a meeting the job completes is not upcoming at any later time |

## Left out

- The ORM, HTTP routing, authentication and JSON decoding: a request is already a `Payload`, a query string a `Query`.
- Parsing of ISO date strings and time zone conversion: a date arrives as `TimeInput`, an instant or malformed.
- Rendering a time for an e-mail (`strftime` in the local zone): the `formatTime` parameter.
- Delivery of mail (`send_mail` with `fail_silently`) and its exception handler: the model returns the mail that would be handed over.
- Logging (`print`), `start_scheduler` and the scheduler's threading and interval.
- Sweeper.UpdatePastMeetings: completes every due meeting. In the source one exception handler surrounds the whole loop (tasks.py:8 and 34), so any exception at one meeting ends the run and keeps what was saved before it. That covers a database error and also the overflow of computing an end outside the date-time range (tasks.py:22). The overflow is modelled separately by `Sweeper.UpdatePastMeetingsAsWritten` (see "## Findings"); database errors are not modelled.
- Concurrency: each handler call and each run of the job is one atomic step on the database. In the source the job and the update handler save the whole row (tasks.py:25, views.py:244), so a write that lands between a load and its save can be overwritten. The model does not capture such lost updates.
- Microseconds, and the precision of floating-point participant entries beyond Python's equality with integers.
- A `null` sent for title, description, duration, meeting_type or status, and a deal or company id that names no row: in the source `Meetings.objects.create` (views.py:156) or `meeting.save()` (views.py:244) raises, the handler answers 500 and nothing is saved. `Payload` cannot carry a null for those keys, and the model does not know which deal and company ids exist, so it stores the given id and answers 200.
- Column widths: `duration` is an integer column and deal and company are integer keys (models.py:21, 25-26), and title, meeting_type and status are limited to 200, 20 and 20 characters (models.py:18, 23-24). A value outside the database's integer range (64 bits on SQLite, 32 bits for `duration` on PostgreSQL or MySQL), or a string over its length where the database enforces it, makes `Meetings.objects.create` (views.py:156) or `meeting.save()` (views.py:244) raise, so the handler answers 500 and saves nothing. `Payload` carries unbounded integers and strings, and the model stores them and answers 200.
- A `participants` value that is not a list, and contact ids that name no contact. In the source these fail, if at all, only after the meeting row is saved (views.py:174-181 and 253-259). A contact id that names no contact raises, giving 500 with the row kept and no mail; the model stores the id as given. A `null` or a number raises the same way, and so does a string or an object when the caller has a contact. When the caller has no contact, the handler walks the string's characters or the object's keys and keeps none of them, so `create` answers 200 with no participants and `update` clears the set and answers 200. The model reproduces that last case when such a value is read as a list of text entries (`MeetingWriteFacts.TextEntriesWithoutCallerStoreNone`), and does not model the raising cases.
- MeetingWrites.Create: reconciles participants with the intended `Participants.Reconcile`. When a float entry equals the caller's contact id and no integer entry names the caller, the code as written leaves the caller out of the set, while the model stores the caller and mails them (see "## Findings"); the other integer entries are stored by both (`Participants.FloatCallerLeftOut`), so with no other integer entry the code stores no participants and mails nobody. On every other list the two agree, as `MeetingWriteFacts.CreateMatchesCodeAsWritten` states.
- MeetingWrites.Update: reconciles a given participant list with the intended `Participants.Reconcile`. When a float entry equals the caller's contact id and no integer entry names the caller, the code as written leaves the caller out of the set, while the model stores the caller (see "## Findings"); the other integer entries are stored by both (`Participants.FloatCallerLeftOut`), so with no other integer entry the code clears the set. On every other list the two agree, as `MeetingWriteFacts.UpdateMatchesCodeAsWritten` states.
- MeetingReads.FilterMeetings: each row is a full view. The rows of the source's filter carry only id, title, date_time, duration, meeting_type, status, deal, company and participants (views.py:356-366). The description, location and upcoming flag in the model's rows are extra, and the model passes no caller contact, so no row carries the current_user marker, as in the source.
- The order of participant ids and of e-mail recipients: both are sets in the model.
- The `deal_title`, `company_name`, `created_at`, `updated_at` fields of a view and the `date` echoed by `today_count`: display values only.
- The separate `tasks` Django app (deals, companies, contacts beyond their e-mail), URL routing and the frontend.
- Listing.Order: breaks ties between equal start times by id, where the table leaves their order unspecified.
- MeetingReads.TodayCount: the day starts at UTC midnight of the current instant, as the source computes it; the configured time zone is not modelled.

## Findings

| source | as written | input that shows it | evidently intended | confidence | as-written member | corrected member |
|---|---|---|---|---|---|---|
| backend/meetings/views.py:172-178 | the caller's contact id is appended only if no entry equals it, and non-integer entries are dropped afterwards; update repeats this at views.py:253-257 | participants [9.0] from a caller whose contact id is 9: 9.0 equals 9, so nothing is appended, then 9.0 is dropped and no participant is stored | the caller is always a participant of a meeting they create or whose participants they set | not executed; follows from Python's equality of 9.0 and 9 | Participants.AsWrittenDropsCaller | Participants.Reconcile |
| backend/meetings/tasks.py:21-35 | every candidate's end time is computed inside the single exception handler around the whole loop, so a meeting whose end falls outside the date-time range raises and ends the run | a scheduled meeting starting at the epoch with a duration of -2000000000 minutes (create stores durations unchecked), listed before a scheduled meeting starting 100 s after the epoch with a duration of 1 minute, with the job running at 1000 s: every run stops at the first meeting, so the second stays scheduled | one malformed meeting does not keep the others from being completed | not executed; relies on the host language raising when a date-time leaves years 1 to 9999 | Sweeper.OverflowStopsLaterMeetings | Sweeper.Sweep |

=== FILE: api_read.dfy ===
/**
 * The request handlers that only read the meeting table: retrieve one,
 * retrieve all (with the marker for the requesting user), filter, and the
 * count of today's scheduled meetings.
 */
module MeetingReads {
  import opened Options
  import opened Meetings
  import opened Store
  import opened Listing
  import SetFacts

  /** A participant as the list endpoint reports it: a contact id, or the marker for the requesting user. */
  datatype ParticipantRef = ContactId(id: int) | CurrentUser

  /** One meeting as an endpoint reports it. */
  datatype View = View(id: int, meeting: Meeting, participants: set<ParticipantRef>, isUpcoming: bool)

  datatype Lookup = Missing | Found(view: View)

  /** The ids a sequence of views reports. */
  function RowIds(rows: seq<View>): set<int> {
    set i | 0 <= i < |rows| :: rows[i].id
  }

  /**
   * The participant column of the full listing: the participants' ids, plus
   * the marker when the caller has a contact that is not among them.
   */
  function ParticipantRefs(m: Meeting, callerContact: Option<int>): (r: set<ParticipantRef>)
    ensures forall c :: ContactId(c) in r <==> c in m.participants
    ensures CurrentUser in r <==> callerContact.Some? && callerContact.value !in m.participants
  {
    (set c | c in m.participants :: ContactId(c))
      + (if callerContact.Some? && callerContact.value !in m.participants then {CurrentUser} else {})
  }

  /** Retrieve one meeting; an unknown id is "not found" (a 404). No marker is added here. */
  function GetMeeting(db: Db, id: int, now: int): (r: Lookup)
    ensures r.Missing? <==> id !in db.meetings
    ensures r.Found? ==>
              && r.view.id == id
              && r.view.meeting == db.meetings[id]
              && r.view.isUpcoming == IsUpcoming(db.meetings[id], now)
              && (forall p :: p in r.view.participants <==> p.ContactId? && p.id in db.meetings[id].participants)
  {
    if id !in db.meetings then Missing
    else
      var m := db.meetings[id];
      Found(View(id, m, ParticipantRefs(m, None), IsUpcoming(m, now)))
  }

  /** How an endpoint reports the stored meeting `id`. */
  function ViewOf(meetings: map<int, Meeting>, id: int, callerContact: Option<int>, now: int): View
    requires id in meetings
  {
    View(id, meetings[id], ParticipantRefs(meetings[id], callerContact), IsUpcoming(meetings[id], now))
  }

  /** The views of the meetings `ids` names, in the order it names them. */
  function Views(meetings: map<int, Meeting>, ids: seq<int>, callerContact: Option<int>, now: int): (r: seq<View>)
    requires forall i :: 0 <= i < |ids| ==> ids[i] in meetings
    ensures |r| == |ids|
    ensures forall i :: 0 <= i < |r| ==> r[i] == ViewOf(meetings, ids[i], callerContact, now)
    decreases |ids|
  {
    if ids == [] then []
    else [ViewOf(meetings, ids[0], callerContact, now)] + Views(meetings, ids[1..], callerContact, now)
  }

  /** The views report exactly the ids they were built from. */
  lemma ViewIds(meetings: map<int, Meeting>, ids: seq<int>, callerContact: Option<int>, now: int)
    requires forall i :: 0 <= i < |ids| ==> ids[i] in meetings
    ensures RowIds(Views(meetings, ids, callerContact, now)) == set i | 0 <= i < |ids| :: ids[i]
    ensures forall k :: k in ids <==> k in RowIds(Views(meetings, ids, callerContact, now))
  {
    var r := Views(meetings, ids, callerContact, now);
    forall k ensures k in RowIds(r) <==> k in ids {
      if k in ids {
        var i :| 0 <= i < |ids| && ids[i] == k;
        assert r[i].id == k;
      }
    }
  }

  /** Views built from ids in listing order are in listing order, each id once. */
  lemma ViewsInListingOrder(meetings: map<int, Meeting>, ids: seq<int>, callerContact: Option<int>, now: int)
    requires forall i :: 0 <= i < |ids| ==> ids[i] in meetings
    requires forall i, j :: 0 <= i < j < |ids| ==> ids[i] != ids[j]
    requires forall i, j :: 0 <= i < j < |ids| ==> Precedes(meetings, ids[i], ids[j])
    ensures var r := Views(meetings, ids, callerContact, now);
            && (forall i, j :: 0 <= i < j < |r| ==> r[i].id != r[j].id)
            && (forall i, j :: 0 <= i < j < |r| ==> r[i].meeting.dateTime <= r[j].meeting.dateTime)
  {
    StartsAscend(meetings, ids);
  }

  /** The views of a whole table in listing order. */
  function Listed(meetings: map<int, Meeting>, callerContact: Option<int>, now: int): seq<View> {
    Views(meetings, ByDateTime(meetings), callerContact, now)
  }

  lemma ListedCoversTable(meetings: map<int, Meeting>, callerContact: Option<int>, now: int)
    ensures |Listed(meetings, callerContact, now)| == |meetings|
    ensures RowIds(Listed(meetings, callerContact, now)) == meetings.Keys
  {
    ViewIds(meetings, ByDateTime(meetings), callerContact, now);
  }

  lemma ListedInOrder(meetings: map<int, Meeting>, callerContact: Option<int>, now: int)
    ensures var r := Listed(meetings, callerContact, now);
            && (forall i, j :: 0 <= i < j < |r| ==> r[i].id != r[j].id)
            && (forall i, j :: 0 <= i < j < |r| ==> r[i].meeting.dateTime <= r[j].meeting.dateTime)
  {
    var ids := ByDateTime(meetings);
    var r := Listed(meetings, callerContact, now);
    forall i, j | 0 <= i < j < |r|
      ensures r[i].id != r[j].id && r[i].meeting.dateTime <= r[j].meeting.dateTime
    {
      assert r[i] == ViewOf(meetings, ids[i], callerContact, now);
      assert r[j] == ViewOf(meetings, ids[j], callerContact, now);
      ListedByStart(meetings, i, j);
    }
  }

  /** Retrieve all meetings, ascending by start, each with the requesting-user marker where it applies. */
  function GetAllMeetings(db: Db, callerEmail: string, now: int): (r: seq<View>)
    requires UniqueEmails(db.contacts)
    ensures |r| == |db.meetings|
    ensures RowIds(r) == db.meetings.Keys
    ensures forall i :: 0 <= i < |r| ==>
              && r[i].id in db.meetings
              && r[i].meeting == db.meetings[r[i].id]
              && r[i].isUpcoming == IsUpcoming(r[i].meeting, now)
              && r[i].participants == ParticipantRefs(r[i].meeting, CallerContact(db.contacts, callerEmail))
    ensures forall i, j :: 0 <= i < j < |r| ==> r[i].id != r[j].id
    ensures forall i, j :: 0 <= i < j < |r| ==> r[i].meeting.dateTime <= r[j].meeting.dateTime
  {
    var contact := CallerContact(db.contacts, callerEmail);
    ListedCoversTable(db.meetings, contact, now);
    ListedInOrder(db.meetings, contact, now);
    Listed(db.meetings, contact, now)
  }

  /** Leaving out the marker is the same as having no caller contact. */
  lemma MarkerOnlyDifference(m: Meeting, callerContact: Option<int>)
    ensures ParticipantRefs(m, None) == ParticipantRefs(m, callerContact) - {CurrentUser}
  {
    var a := ParticipantRefs(m, None);
    var b := ParticipantRefs(m, callerContact) - {CurrentUser};
    forall p ensures p in a <==> p in b {
      if p.ContactId? {
        assert p in a <==> p.id in m.participants;
      }
    }
  }

  /** The full listing and the single-meeting view agree on every meeting, up to the marker. */
  lemma ListingAgreesWithLookup(db: Db, callerEmail: string, now: int, i: int)
    requires UniqueEmails(db.contacts)
    requires 0 <= i < |db.meetings|
    ensures var v := GetAllMeetings(db, callerEmail, now)[i];
            var one := GetMeeting(db, v.id, now);
            && one.Found?
            && one.view.meeting == v.meeting
            && one.view.isUpcoming == v.isUpcoming
            && one.view.participants == v.participants - {CurrentUser}
  {
    var all := GetAllMeetings(db, callerEmail, now);
    var v := all[i];
    assert v.id in db.meetings && v.meeting == db.meetings[v.id];
    assert v.participants == ParticipantRefs(v.meeting, CallerContact(db.contacts, callerEmail));
    MarkerOnlyDifference(v.meeting, CallerContact(db.contacts, callerEmail));
  }

  /** A filter parameter naming an id: unset (absent or empty), a number, or text that is not one. */
  datatype IdParam = Unset | Given(value: int) | NotNumeric

  /** The filter query; an empty `status` imposes nothing. */
  datatype Query = Query(deal: IdParam, company: IdParam, status: string)

  datatype Filtered = FilterFailed | Rows(rows: seq<View>)

  /** The meeting satisfies every constraint the query sets. */
  predicate Matches(m: Meeting, q: Query) {
    && (q.deal.Given? ==> m.deal == Some(q.deal.value))
    && (q.company.Given? ==> m.company == Some(q.company.value))
    && (q.status != "" ==> m.status == q.status)
  }

  /** The ids of the meetings that satisfy the query. */
  function MatchingIds(meetings: map<int, Meeting>, q: Query): set<int> {
    set id | id in meetings && Matches(meetings[id], q)
  }

  /**
   * Filter. A deal or company parameter that is not a number is a server
   * error (500); otherwise the rows are exactly the matching meetings,
   * ascending by start.
   */
  function FilterMeetings(db: Db, q: Query, now: int): (r: Filtered)
    ensures r.FilterFailed? <==> q.deal.NotNumeric? || q.company.NotNumeric?
    ensures r.Rows? ==> RowIds(r.rows) == MatchingIds(db.meetings, q)
    ensures r.Rows? ==> forall i :: 0 <= i < |r.rows| ==>
              r.rows[i].id in db.meetings && r.rows[i].meeting == db.meetings[r.rows[i].id]
    ensures r.Rows? ==> forall i, j :: 0 <= i < j < |r.rows| ==> r.rows[i].id != r.rows[j].id
    ensures r.Rows? ==> forall i, j :: 0 <= i < j < |r.rows| ==> r.rows[i].meeting.dateTime <= r.rows[j].meeting.dateTime
  {
    if q.deal.NotNumeric? || q.company.NotNumeric? then FilterFailed
    else
      var matching := MatchingIds(db.meetings, q);
      var ids := Order(db.meetings, matching);
      var rows := Views(db.meetings, ids, None, now);
      ViewsInListingOrder(db.meetings, ids, None, now);
      ViewIds(db.meetings, ids, None, now);
      Rows(rows)
  }

  /** Every row satisfies the query. */
  lemma FilterRowsMatch(db: Db, q: Query, now: int)
    requires !q.deal.NotNumeric? && !q.company.NotNumeric?
    ensures FilterMeetings(db, q, now).Rows?
    ensures var rows := FilterMeetings(db, q, now).rows;
            forall i :: 0 <= i < |rows| ==> Matches(rows[i].meeting, q)
  {
    var rows := FilterMeetings(db, q, now).rows;
    forall i | 0 <= i < |rows| ensures Matches(rows[i].meeting, q) {
      assert rows[i].id in RowIds(rows);
    }
  }

  /** Matching a query is matching each of its single constraints. */
  lemma MatchingIsConjunction(meetings: map<int, Meeting>, q: Query)
    ensures MatchingIds(meetings, q) ==
            MatchingIds(meetings, Query(q.deal, Unset, "")) *
            MatchingIds(meetings, Query(Unset, q.company, "")) *
            MatchingIds(meetings, Query(Unset, Unset, q.status))
  {
    var byDeal := MatchingIds(meetings, Query(q.deal, Unset, ""));
    var byCompany := MatchingIds(meetings, Query(Unset, q.company, ""));
    var byStatus := MatchingIds(meetings, Query(Unset, Unset, q.status));
    forall id ensures id in MatchingIds(meetings, q) <==> id in byDeal * byCompany * byStatus {
      if id in meetings {
        var m := meetings[id];
        assert Matches(m, q) <==>
          Matches(m, Query(q.deal, Unset, "")) && Matches(m, Query(Unset, q.company, "")) && Matches(m, Query(Unset, Unset, q.status));
      }
    }
  }

  /** A status that no meeting has yields no rows, and no error. */
  lemma UnmatchedStatusIsEmpty(db: Db, status: string, now: int)
    requires status != ""
    requires forall id :: id in db.meetings ==> db.meetings[id].status != status
    ensures FilterMeetings(db, Query(Unset, Unset, status), now) == Rows([])
  {
  }

  const SecondsPerDay := 86400

  /** The start of the UTC day containing `now`. */
  function Midnight(now: int): (t: int)
    ensures t % SecondsPerDay == 0
    ensures t <= now < t + SecondsPerDay
  {
    now - now % SecondsPerDay
  }

  /** Scheduled, and starting within the UTC day containing `now`. */
  predicate CountsToday(m: Meeting, now: int) {
    m.status == Scheduled && Midnight(now) <= m.dateTime < Midnight(now) + SecondsPerDay
  }

  function TodayIds(meetings: map<int, Meeting>, now: int): set<int> {
    set id | id in meetings && CountsToday(meetings[id], now)
  }

  /** The number of scheduled meetings starting today. */
  function TodayCount(meetings: map<int, Meeting>, now: int): (r: nat)
    ensures r <= |meetings|
  {
    assert TodayIds(meetings, now) <= meetings.Keys;
    SetFacts.SubsetSize(TodayIds(meetings, now), meetings.Keys);
    |TodayIds(meetings, now)|
  }

  /** The count is zero exactly when no scheduled meeting starts today. */
  lemma TodayCountZero(meetings: map<int, Meeting>, now: int)
    ensures TodayCount(meetings, now) == 0 <==> forall id :: id in meetings ==> !CountsToday(meetings[id], now)
  {
    var today := TodayIds(meetings, now);
    SetFacts.HasMember(today);
    assert forall id :: id in meetings && CountsToday(meetings[id], now) ==> id in today;
    if forall id :: id in meetings ==> !CountsToday(meetings[id], now) {
      assert today == {};
    }
  }

  /** Adding a meeting under a new id raises the count by one exactly when it counts today. */
  lemma TodayCountAdd(meetings: map<int, Meeting>, now: int, id: int, m: Meeting)
    requires id !in meetings
    ensures TodayCount(meetings[id := m], now) == TodayCount(meetings, now) + (if CountsToday(m, now) then 1 else 0)
  {
    if CountsToday(m, now) {
      assert TodayIds(meetings[id := m], now) == TodayIds(meetings, now) + {id};
    } else {
      assert TodayIds(meetings[id := m], now) == TodayIds(meetings, now);
    }
  }
}

=== FILE: api_write.dfy ===
/**
 * The request handlers that change the meeting table: create, update, and
 * the "delete" that in fact cancels. Each returns the new store, the HTTP
 * status code, the meeting id it reports, and the mail it dispatches.
 */
module MeetingWrites {
  import opened Options
  import opened Meetings
  import opened Store
  import N = Notification
  import opened Participants

  const OK := 200
  const BadRequest := 400
  const NotFound := 404
  const ServerError := 500

  /**
   * The `date_time` text as the parse-and-localise step sees it: either it
   * yields an instant, or it is rejected (not ISO text, or carrying a UTC
   * designator or an offset, which the localise step refuses).
   */
  datatype TimeInput = Instant(seconds: int) | Malformed

  /**
   * The keys a create or update body may carry; `None` is an absent key.
   * `location`, `deal` and `company` may be present with a null value.
   */
  datatype Payload = Payload(
    title: Option<string>,
    description: Option<string>,
    dateTime: Option<TimeInput>,
    duration: Option<int>,
    location: Option<Option<string>>,
    meetingType: Option<string>,
    status: Option<string>,
    deal: Option<Option<int>>,
    company: Option<Option<int>>,
    participants: Option<seq<Entry>>)

  /** The authenticated caller, and how the server renders an instant in mail. */
  datatype Caller = Caller(email: string, formatTime: int -> string)

  datatype Outcome = Outcome(db: Db, code: int, meetingId: Option<int>, mail: N.Mail)

  /** Every key other than `date_time` that create reads without a default. */
  predicate HasRequired(p: Payload) {
    p.title.Some? && p.duration.Some? && p.meetingType.Some? && p.status.Some?
  }

  /** The participant set the caller's list reconciles to. */
  function CallerParticipants(db: Db, caller: Caller, entries: seq<Entry>): set<int>
    requires UniqueEmails(db.contacts)
  {
    Reconcile(entries, CallerContact(db.contacts, caller.email))
  }

  /** `after` is `before` with exactly the fields present in `p` replaced, verbatim. */
  predicate FollowsPatch(before: Meeting, after: Meeting, p: Payload, participants: set<int>) {
    && after.title == (if p.title.Some? then p.title.value else before.title)
    && after.description == (if p.description.Some? then p.description.value else before.description)
    && after.dateTime == (if p.dateTime.Some? && p.dateTime.value.Instant? then p.dateTime.value.seconds else before.dateTime)
    && after.duration == (if p.duration.Some? then p.duration.value else before.duration)
    && after.location == (if p.location.Some? then p.location.value else before.location)
    && after.meetingType == (if p.meetingType.Some? then p.meetingType.value else before.meetingType)
    && after.status == (if p.status.Some? then p.status.value else before.status)
    && after.deal == (if p.deal.Some? then p.deal.value else before.deal)
    && after.company == (if p.company.Some? then p.company.value else before.company)
    && after.participants == (if p.participants.Some? then participants else before.participants)
  }

  /**
   * Create. A missing `date_time` is a 400; a malformed one a 500; then a
   * missing title, duration, type or status is a 400. Otherwise the meeting is
   * stored under the next id with the caller's values verbatim, absent
   * optional keys defaulting, and a "created" mail goes to its participants.
   */
  function Create(db: Db, caller: Caller, p: Payload): (r: Outcome)
    requires Valid(db)
    ensures Valid(r.db)
    ensures r.code == OK || r.code == BadRequest || r.code == ServerError
    ensures r.code == BadRequest <==> p.dateTime.None? || (p.dateTime.value.Instant? && !HasRequired(p))
    ensures r.code == ServerError <==> p.dateTime == Some(Malformed)
    ensures r.code != OK ==> r.db == db && r.meetingId.None? && r.mail.NothingSent?
    ensures r.code == OK ==>
              && r.meetingId == Some(db.nextId)
              && db.nextId !in db.meetings
              && r.db.meetings.Keys == db.meetings.Keys + {db.nextId}
              && (forall id :: id in db.meetings ==> r.db.meetings[id] == db.meetings[id])
              && r.db.contacts == db.contacts
    ensures r.code == OK ==>
              var m := r.db.meetings[db.nextId];
              && m.title == p.title.value
              && m.dateTime == p.dateTime.value.seconds
              && m.duration == p.duration.value
              && m.meetingType == p.meetingType.value
              && m.status == p.status.value
              && m.description == p.description.GetOr("")
              && m.location == p.location.GetOr(Some(""))
              && m.deal == p.deal.GetOr(None)
              && m.company == p.company.GetOr(None)
              && m.participants == CallerParticipants(db, caller, p.participants.GetOr([]))
              && r.mail == N.Compose(m, N.Created, None, db.contacts, caller.formatTime)
  {
    if p.dateTime.None? then Outcome(db, BadRequest, None, N.NothingSent)
    else if p.dateTime.value.Malformed? then Outcome(db, ServerError, None, N.NothingSent)
    else if !HasRequired(p) then Outcome(db, BadRequest, None, N.NothingSent)
    else
      var id := db.nextId;
      var blank := Meeting(p.title.value, p.description.GetOr(""), p.dateTime.value.seconds,
                           p.duration.value, p.location.GetOr(Some("")), p.meetingType.value,
                           p.status.value, p.deal.GetOr(None), p.company.GetOr(None), {});
      var ids := CallerParticipants(db, caller, p.participants.GetOr([]));
      // The set is only written when non-empty; a fresh meeting has none.
      var m := if ids != {} then blank.(participants := ids) else blank;
      Outcome(Db(db.meetings[id := m], db.contacts, id + 1), OK, Some(id),
              N.Compose(m, N.Created, None, db.contacts, caller.formatTime))
  }

  /**
   * Update. An unknown id is a 404 and a malformed `date_time` a 500, both
   * leaving the store as it was. Otherwise each field present in the patch is
   * replaced and every other is kept; a present participant list replaces the
   * whole set. A patch carrying `date_time` sends a reschedule notice quoting
   * the start before the patch; any other sends an "updated" notice.
   */
  function Update(db: Db, caller: Caller, id: int, p: Payload): (r: Outcome)
    requires Valid(db)
    ensures Valid(r.db)
    ensures r.code == NotFound <==> id !in db.meetings
    ensures r.code == ServerError <==> id in db.meetings && p.dateTime == Some(Malformed)
    ensures r.code == OK || r.code == NotFound || r.code == ServerError
    ensures r.code != OK ==> r.db == db && r.meetingId.None? && r.mail.NothingSent?
    ensures r.code == OK ==>
              && r.meetingId == Some(id)
              && r.db.meetings.Keys == db.meetings.Keys
              && (forall k :: k in db.meetings && k != id ==> r.db.meetings[k] == db.meetings[k])
              && r.db.contacts == db.contacts && r.db.nextId == db.nextId
              && FollowsPatch(db.meetings[id], r.db.meetings[id], p,
                              CallerParticipants(db, caller, p.participants.GetOr([])))
    ensures r.code == OK && p.dateTime.Some? ==>
              r.mail == N.Compose(r.db.meetings[id], N.Created, Some(db.meetings[id].dateTime), db.contacts, caller.formatTime)
    ensures r.code == OK && p.dateTime.None? ==>
              r.mail == N.Compose(r.db.meetings[id], N.Updated, None, db.contacts, caller.formatTime)
  {
    if id !in db.meetings then Outcome(db, NotFound, None, N.NothingSent)
    else if p.dateTime == Some(Malformed) then Outcome(db, ServerError, None, N.NothingSent)
    else
      var before := db.meetings[id];
      var after := Meeting(
        p.title.GetOr(before.title),
        p.description.GetOr(before.description),
        if p.dateTime.Some? then p.dateTime.value.seconds else before.dateTime,
        p.duration.GetOr(before.duration),
        p.location.GetOr(before.location),
        p.meetingType.GetOr(before.meetingType),
        p.status.GetOr(before.status),
        p.deal.GetOr(before.deal),
        p.company.GetOr(before.company),
        if p.participants.Some? then CallerParticipants(db, caller, p.participants.value) else before.participants);
      var mail := if p.dateTime.Some?
                  then N.Compose(after, N.Created, Some(before.dateTime), db.contacts, caller.formatTime)
                  else N.Compose(after, N.Updated, None, db.contacts, caller.formatTime);
      Outcome(db.(meetings := db.meetings[id := after]), OK, Some(id), mail)
  }

  /**
   * Delete, which cancels: an unknown id is a 404; otherwise a "cancelled"
   * mail is composed from the meeting as it stands and its status becomes
   * cancelled, whatever it was. The record is never removed.
   */
  function Cancel(db: Db, caller: Caller, id: int): (r: Outcome)
    ensures r.code == NotFound <==> id !in db.meetings
    ensures r.code == OK || r.code == NotFound
    ensures r.code == NotFound ==> r.db == db && r.mail.NothingSent?
    ensures r.meetingId.None?
    ensures r.db.meetings.Keys == db.meetings.Keys
    ensures r.db.contacts == db.contacts && r.db.nextId == db.nextId
    ensures forall k :: k in db.meetings && k != id ==> r.db.meetings[k] == db.meetings[k]
    ensures r.code == OK ==>
              && r.db.meetings[id].status == Cancelled
              && r.db.meetings[id].(status := db.meetings[id].status) == db.meetings[id]
              && r.mail == N.Compose(db.meetings[id], N.Cancelled, None, db.contacts, caller.formatTime)
  {
    if id !in db.meetings then Outcome(db, NotFound, None, N.NothingSent)
    else
      var m := db.meetings[id];
      var mail := N.Compose(m, N.Cancelled, None, db.contacts, caller.formatTime);
      Outcome(db.(meetings := db.meetings[id := m.(status := Cancelled)]), OK, None, mail)
  }
}

/** Properties relating the write handlers to one another and to concrete requests. */
module MeetingWriteFacts {
  import opened Options
  import opened Meetings
  import opened Store
  import opened Participants
  import opened MeetingWrites
  import N = Notification

  function EmptyPatch(): Payload {
    Payload(None, None, None, None, None, None, None, None, None, None)
  }

  /** An empty patch leaves the meeting as it was and sends a plain "updated" notice. */
  lemma EmptyPatchKeepsStore(db: Db, caller: Caller, id: int)
    requires Valid(db) && id in db.meetings
    ensures Update(db, caller, id, EmptyPatch()).db == db
    ensures Update(db, caller, id, EmptyPatch()).mail == N.Compose(db.meetings[id], N.Updated, None, db.contacts, caller.formatTime)
  {
    var r := Update(db, caller, id, EmptyPatch());
    assert r.db.meetings[id] == db.meetings[id];
    assert r.db.meetings == db.meetings;
  }

  /** Patching only the location changes that one field of that one meeting and nothing else. */
  lemma LocationOnlyPatch(db: Db, caller: Caller, id: int, location: Option<string>)
    requires Valid(db) && id in db.meetings
    ensures var r := Update(db, caller, id, EmptyPatch().(location := Some(location)));
            && r.code == OK
            && r.db == db.(meetings := db.meetings[id := db.meetings[id].(location := location)])
  {
  }

  /**
   * Create stores the participant set the code as written stores, whenever
   * no float entry equals the caller's contact id.
   */
  lemma CreateMatchesCodeAsWritten(db: Db, caller: Caller, p: Payload)
    requires Valid(db)
    requires p.dateTime.Some? && p.dateTime.value.Instant? && HasRequired(p)
    requires NoFloatCaller(p.participants.GetOr([]), CallerContact(db.contacts, caller.email))
    ensures var r := Create(db, caller, p);
            && r.code == OK
            && r.db.meetings[db.nextId].participants ==
               ReconcileAsWritten(p.participants.GetOr([]), CallerContact(db.contacts, caller.email))
  {
    AsWrittenAgrees(p.participants.GetOr([]), CallerContact(db.contacts, caller.email));
  }

  /**
   * An update carrying a participant list stores the set the code as written
   * stores, whenever no float entry equals the caller's contact id.
   */
  lemma UpdateMatchesCodeAsWritten(db: Db, caller: Caller, id: int, p: Payload)
    requires Valid(db) && id in db.meetings
    requires p.dateTime != Some(Malformed) && p.participants.Some?
    requires NoFloatCaller(p.participants.value, CallerContact(db.contacts, caller.email))
    ensures var r := Update(db, caller, id, p);
            && r.code == OK
            && r.db.meetings[id].participants ==
               ReconcileAsWritten(p.participants.value, CallerContact(db.contacts, caller.email))
  {
    AsWrittenAgrees(p.participants.value, CallerContact(db.contacts, caller.email));
  }

  /**
   * A caller with no contact who sends text where ids belong (a string walked
   * character by character, or an object's keys) gets no participants: create
   * stores none and update clears the set.
   */
  lemma TextEntriesWithoutCallerStoreNone(db: Db, caller: Caller, id: int, entries: seq<Entry>, p: Payload)
    requires Valid(db) && id in db.meetings
    requires CallerContact(db.contacts, caller.email).None?
    requires forall e :: e in entries ==> e.JText?
    requires p.dateTime.Some? && p.dateTime.value.Instant? && HasRequired(p)
    ensures var r := Create(db, caller, p.(participants := Some(entries)));
            r.code == OK && r.db.meetings[db.nextId].participants == {}
    ensures var r := Update(db, caller, id, p.(participants := Some(entries)));
            r.code == OK && r.db.meetings[id].participants == {}
  {
    assert IntIds(entries) == {};
  }

  /** Applying the same patch twice stores the same table as applying it once. */
  lemma {:induction false} UpdateIdempotent(db: Db, caller: Caller, id: int, p: Payload)
    requires Valid(db)
    ensures var once := Update(db, caller, id, p);
            Update(once.db, caller, id, p).db == once.db
  {
    var once := Update(db, caller, id, p);
    if once.code == OK {
      var twice := Update(once.db, caller, id, p);
      assert once.db.contacts == db.contacts;
      assert twice.db.meetings[id] == once.db.meetings[id];
      assert twice.db.meetings == once.db.meetings;
    }
  }

  /** The subject of an update's mail names a creation exactly when the patch moved the start. */
  lemma UpdateSubjectTellsReschedule(db: Db, caller: Caller, id: int, p: Payload)
    requires Valid(db)
    ensures var r := Update(db, caller, id, p);
            r.mail.Sent? ==>
              && r.code == OK
              && (N.ParseSubject(r.mail.subject) == Some((N.Created, r.db.meetings[id].title)) <==> p.dateTime.Some?)
              && (N.ParseSubject(r.mail.subject) == Some((N.Updated, r.db.meetings[id].title)) <==> p.dateTime.None?)
  {
  }

  /** Cancelling twice stores the same table as cancelling once. */
  lemma CancelIdempotent(db: Db, caller: Caller, id: int)
    ensures Cancel(Cancel(db, caller, id).db, caller, id).db == Cancel(db, caller, id).db
  {
    var once := Cancel(db, caller, id);
    if id in db.meetings {
      var twice := Cancel(once.db, caller, id);
      assert twice.db.meetings[id] == once.db.meetings[id];
      assert twice.db.meetings == once.db.meetings;
    }
  }

  /** Creating with participants [5, 7] as the caller whose contact is 9 stores {5, 7, 9}. */
  lemma CreateAddsCaller(formatTime: int -> string)
    ensures var db := Db(map[], map[9 := "me@example.com"], 1);
            var p := Payload(Some("Kickoff"), None, Some(Instant(0)), Some(30), None, Some(Virtual),
                             Some(Scheduled), None, None, Some([JInt(5), JInt(7)]));
            var r := Create(db, Caller("me@example.com", formatTime), p);
            r.code == OK && r.db.meetings[1].participants == {5, 7, 9}
  {
    var contacts := map[9 := "me@example.com"];
    assert UniqueEmails(contacts);
    assert contacts[9] == "me@example.com";
    assert forall k :: k in contacts ==> k == 9;
    assert CallerContact(contacts, "me@example.com") == Some(9);
    var entries := [JInt(5), JInt(7)];
    assert JInt(5) in entries && IsInt(JInt(5)) && IntValue(JInt(5)) == 5;
    assert JInt(7) in entries && IsInt(JInt(7)) && IntValue(JInt(7)) == 7;
    var ids := Reconcile(entries, Some(9));
    assert 5 in ids && 7 in ids && 9 in ids;
    assert ids == {5, 7, 9};
  }

  /** Status and duration are not checked: an unknown status and a negative duration are stored as given. */
  lemma CreateStoresUncheckedValues(formatTime: int -> string)
    ensures var db := Db(map[], map[], 1);
            var p := Payload(Some("Retro"), None, Some(Instant(0)), Some(-5), None, Some("carrier pigeon"),
                             Some("postponed"), None, None, None);
            var r := Create(db, Caller("me@example.com", formatTime), p);
            && r.code == OK
            && r.db.meetings[1].status == "postponed" && "postponed" !in StatusChoices
            && r.db.meetings[1].meetingType !in TypeChoices
            && r.db.meetings[1].duration == -5
  {
  }

  /** Cancelling a completed meeting makes it cancelled: the handler checks no transition. */
  lemma CancelAfterCompletion(db: Db, caller: Caller, id: int)
    requires id in db.meetings && db.meetings[id].status == Completed
    ensures Cancel(db, caller, id).db.meetings[id].status == Cancelled
  {
  }
}

=== FILE: lifecycle_facts.dfy ===
/** Properties that tie the handlers, the sweep and the reads together. */
module LifecycleFacts {
  import opened Options
  import opened Meetings
  import opened Store
  import opened Sweeper
  import opened MeetingWrites
  import opened MeetingReads
  import SetFacts

  /** After a cancel, retrieving the meeting finds it, cancelled. */
  lemma CancelledStillRetrievable(db: Db, caller: Caller, id: int, now: int)
    requires id in db.meetings
    ensures var after := Cancel(db, caller, id).db;
            && GetMeeting(after, id, now).Found?
            && GetMeeting(after, id, now).view.meeting.status == Cancelled
            && !GetMeeting(after, id, now).view.isUpcoming
  {
  }

  /** Creating a scheduled meeting that starts today raises today's count by exactly one. */
  lemma CreateRaisesTodayCount(db: Db, caller: Caller, p: Payload, now: int)
    requires Valid(db)
    requires p.dateTime.Some? && p.dateTime.value.Instant? && HasRequired(p)
    requires p.status == Some(Scheduled)
    requires Midnight(now) <= p.dateTime.value.seconds < Midnight(now) + SecondsPerDay
    ensures TodayCount(Create(db, caller, p).db.meetings, now) == TodayCount(db.meetings, now) + 1
  {
    var r := Create(db, caller, p);
    assert r.db.meetings == db.meetings[db.nextId := r.db.meetings[db.nextId]];
    TodayCountAdd(db.meetings, now, db.nextId, r.db.meetings[db.nextId]);
  }

  /** A sweep never raises today's count: it only ever takes meetings out of the scheduled state. */
  lemma SweepNeverRaisesTodayCount(meetings: map<int, Meeting>, now: int)
    ensures TodayIds(Sweep(meetings, now), now) <= TodayIds(meetings, now)
    ensures TodayCount(Sweep(meetings, now), now) <= TodayCount(meetings, now)
  {
    var after := Sweep(meetings, now);
    forall id | id in TodayIds(after, now) ensures id in TodayIds(meetings, now) {
      if Due(meetings[id], now) {
        assert after[id].status == Completed;
      }
    }
    SetFacts.SubsetSize(TodayIds(after, now), TodayIds(meetings, now));
  }

  /** Every meeting a sweep completes has left the upcoming list for good. */
  lemma SweptMeetingsAreNotUpcoming(meetings: map<int, Meeting>, now: int, later: int)
    requires now <= later
    ensures forall id :: id in meetings && Due(meetings[id], now) ==> !IsUpcoming(Sweep(meetings, now)[id], later)
  {
  }
}

=== FILE: listing.dfy ===
/**
 * The default listing order of meetings: ascending start time. The table
 * leaves ties unordered; this model breaks them by id, which is one of the
 * orders the table may produce.
 */
module Listing {
  import opened Meetings
  import SetFacts

  /** `a` is listed no later than `b`: an earlier start, or the same start and a smaller id. */
  predicate Precedes(m: map<int, Meeting>, a: int, b: int)
    requires a in m && b in m
  {
    m[a].dateTime < m[b].dateTime || (m[a].dateTime == m[b].dateTime && a <= b)
  }

  /** Listing order is total and transitive. */
  lemma PrecedesTotalTransitive(m: map<int, Meeting>, a: int, b: int, c: int)
    requires a in m && b in m && c in m
    ensures Precedes(m, a, b) || Precedes(m, b, a)
    ensures Precedes(m, a, b) && Precedes(m, b, c) ==> Precedes(m, a, c)
  {
  }

  /** Every non-empty set of stored ids has a first member. */
  lemma {:induction false} FirstExists(m: map<int, Meeting>, ids: set<int>)
    requires ids != {} && ids <= m.Keys
    ensures exists k :: k in ids && forall j :: j in ids ==> Precedes(m, k, j)
    decreases ids
  {
    SetFacts.HasMember(ids);
    var x :| x in ids;
    var rest := ids - {x};
    if rest == {} {
      forall j | j in ids ensures j == x {
        assert j == x || j in rest;
      }
      assert Precedes(m, x, x);
    } else {
      FirstExists(m, rest);
      var k :| k in rest && forall j :: j in rest ==> Precedes(m, k, j);
      var w := if Precedes(m, k, x) then k else x;
      forall j | j in ids ensures Precedes(m, w, j) {
        PrecedesTotalTransitive(m, w, k, j);
        PrecedesTotalTransitive(m, k, x, j);
        if j != x { assert j in rest; }
      }
      assert w in ids;
    }
  }

  /** The member of `ids` listed first. */
  function First(m: map<int, Meeting>, ids: set<int>): (k: int)
    requires ids != {} && ids <= m.Keys
    ensures k in ids
    ensures forall j :: j in ids ==> Precedes(m, k, j)
  {
    FirstExists(m, ids);
    var k :| k in ids && forall j :: j in ids ==> Precedes(m, k, j);
    k
  }

  /** The members of `ids`, each exactly once, in listing order. */
  function Order(m: map<int, Meeting>, ids: set<int>): (r: seq<int>)
    requires ids <= m.Keys
    ensures |r| == |ids|
    ensures forall i :: 0 <= i < |r| ==> r[i] in ids
    ensures forall k :: k in ids ==> k in r
    ensures forall i, j :: 0 <= i < j < |r| ==> r[i] != r[j]
    ensures forall i, j :: 0 <= i < j < |r| ==> Precedes(m, r[i], r[j])
    decreases ids
  {
    if ids == {} then []
    else
      var k := First(m, ids);
      var tail := Order(m, ids - {k});
      PrependFirst(m, ids, k, tail);
      [k] + tail
  }

  /** Putting the first member in front of an ordering of the others orders the whole set. */
  lemma PrependFirst(m: map<int, Meeting>, ids: set<int>, k: int, tail: seq<int>)
    requires ids <= m.Keys && k in ids
    requires forall j :: j in ids ==> Precedes(m, k, j)
    requires |tail| == |ids - {k}|
    requires forall i :: 0 <= i < |tail| ==> tail[i] in ids - {k}
    requires forall j :: j in ids - {k} ==> j in tail
    requires forall i, j :: 0 <= i < j < |tail| ==> tail[i] != tail[j]
    requires forall i, j :: 0 <= i < j < |tail| ==> Precedes(m, tail[i], tail[j])
    ensures var r := [k] + tail;
            && |r| == |ids|
            && (forall i :: 0 <= i < |r| ==> r[i] in ids)
            && (forall j :: j in ids ==> j in r)
            && (forall i, j :: 0 <= i < j < |r| ==> r[i] != r[j])
            && (forall i, j :: 0 <= i < j < |r| ==> Precedes(m, r[i], r[j]))
  {
    var r := [k] + tail;
    assert |ids - {k}| == |ids| - 1;
    assert forall i :: 1 <= i < |r| ==> r[i] == tail[i - 1];
    assert forall j :: j in ids ==> j == k || j in ids - {k};
  }

  /** Every stored id, in listing order. */
  function ByDateTime(m: map<int, Meeting>): seq<int> {
    Order(m, m.Keys)
  }

  /** The full listing names every stored meeting exactly once. */
  lemma ListsEveryMeeting(m: map<int, Meeting>)
    ensures forall i :: 0 <= i < |ByDateTime(m)| ==> ByDateTime(m)[i] in m
    ensures forall i, j :: 0 <= i < j < |ByDateTime(m)| ==> ByDateTime(m)[i] != ByDateTime(m)[j]
    ensures forall k :: k in m ==> k in ByDateTime(m)
  {
  }

  /** A meeting starting strictly before every other is listed first. */
  lemma EarliestListedFirst(m: map<int, Meeting>, a: int)
    requires a in m
    requires forall b :: b in m && b != a ==> m[a].dateTime < m[b].dateTime
    ensures |ByDateTime(m)| > 0 && ByDateTime(m)[0] == a
  {
    var ids := ByDateTime(m);
    assert a in ids;
  }

  /** A sequence of ids in listing order is ascending in start time. */
  lemma {:induction false} StartsAscend(m: map<int, Meeting>, ids: seq<int>)
    requires forall i :: 0 <= i < |ids| ==> ids[i] in m
    requires forall i, j :: 0 <= i < j < |ids| ==> Precedes(m, ids[i], ids[j])
    ensures forall i, j :: 0 <= i < j < |ids| ==> m[ids[i]].dateTime <= m[ids[j]].dateTime
  {
    forall i, j | 0 <= i < j < |ids| ensures m[ids[i]].dateTime <= m[ids[j]].dateTime {
      assert Precedes(m, ids[i], ids[j]);
    }
  }

  /** Listing order is ascending in start time. */
  lemma ListedByStart(m: map<int, Meeting>, i: int, j: int)
    requires 0 <= i <= j < |ByDateTime(m)|
    ensures m[ByDateTime(m)[i]].dateTime <= m[ByDateTime(m)[j]].dateTime
  {
    if i < j {
      assert Precedes(m, ByDateTime(m)[i], ByDateTime(m)[j]);
    }
  }
}

=== FILE: meetings.dfy ===
/**
 * The meeting record: its fields, the choice lists and defaults declared for
 * them, and the two values derived from a record and the clock.
 * Time is measured in whole seconds; a meeting's duration is in minutes.
 */
module Meetings {
  import opened Options

  const Scheduled := "scheduled"
  const InProgress := "in_progress"
  const Completed := "completed"
  const Cancelled := "cancelled"

  /** The declared status vocabulary. Nothing on the write paths enforces it. */
  const StatusChoices: set<string> := {Scheduled, InProgress, Completed, Cancelled}

  const InPerson := "in_person"
  const Virtual := "virtual"
  const Phone := "phone"

  /** The declared meeting-type vocabulary, equally unenforced. */
  const TypeChoices: set<string> := {InPerson, Virtual, Phone}

  const DefaultDuration := 60
  const SecondsPerMinute := 60

  /**
   * One stored meeting. `location` is the only nullable text column;
   * `deal` and `company` are nullable references; `participants` holds the
   * ids of the linked contacts.
   */
  datatype Meeting = Meeting(
    title: string,
    description: string,
    dateTime: int,
    duration: int,
    location: Option<string>,
    meetingType: string,
    status: string,
    deal: Option<int>,
    company: Option<int>,
    participants: set<int>)

  /** The instant the meeting ends: its start plus its duration in minutes. */
  function EndTime(m: Meeting): int {
    m.dateTime + SecondsPerMinute * m.duration
  }

  predicate IsTerminal(status: string) {
    status == Completed || status == Cancelled
  }

  /** Starts strictly after `now` and is neither completed nor cancelled. */
  predicate IsUpcoming(m: Meeting, now: int) {
    m.dateTime > now && !IsTerminal(m.status)
  }

  /** A record built from a title and a start alone: every other column takes its declared default. */
  function NewMeeting(title: string, dateTime: int): (m: Meeting)
    ensures m.duration == DefaultDuration && m.meetingType == InPerson
    ensures m.status == Scheduled && m.location == Some("") && m.description == ""
    ensures m.status in StatusChoices && m.meetingType in TypeChoices
    ensures m.deal.None? && m.company.None? && m.participants == {}
    ensures EndTime(m) == dateTime + DefaultDuration * SecondsPerMinute
    ensures forall now :: IsUpcoming(m, now) <==> dateTime > now
  {
    Meeting(title, "", dateTime, DefaultDuration, Some(""), InPerson, Scheduled, None, None, {})
  }

  /** The end lies after the start exactly when the duration is positive. */
  lemma EndTimeAfterStart(m: Meeting)
    ensures EndTime(m) > m.dateTime <==> m.duration > 0
    ensures EndTime(m) - m.dateTime == SecondsPerMinute * m.duration
  {
  }

  /** A completed or cancelled meeting is never upcoming, whatever its start. */
  lemma TerminalNeverUpcoming(m: Meeting, now: int)
    requires m.status == Completed || m.status == Cancelled
    ensures !IsUpcoming(m, now)
  {
  }

  /** A meeting upcoming at some instant was already upcoming at every earlier instant. */
  lemma UpcomingEarlier(m: Meeting, earlier: int, later: int)
    requires earlier <= later
    ensures IsUpcoming(m, later) ==> IsUpcoming(m, earlier)
  {
  }
}

=== FILE: notification.dfy ===
/**
 * The notification sent to a meeting's participants when it is created,
 * rescheduled, updated or cancelled, composed as a value. Delivery itself is
 * outside the model: the caller's outcome never depends on it.
 */
module Notification {
  import opened Options
  import opened Meetings

  datatype Action = Created | Updated | Cancelled

  /** What the dispatcher hands to the mail transport, if anything. */
  datatype Mail = NothingSent | Sent(recipients: set<string>, subject: string, body: string)

  predicate StartsWith(s: string, prefix: string) {
    |prefix| <= |s| && s[..|prefix|] == prefix
  }

  predicate EndsWith(s: string, suffix: string) {
    |suffix| <= |s| && s[|s| - |suffix|..] == suffix
  }

  /** `part` occurs somewhere in `s`. */
  predicate Contains(s: string, part: string) {
    exists i :: 0 <= i <= |s| && StartsWith(s[i..], part)
  }

  lemma ContainsSuffix(before: string, part: string)
    ensures Contains(before + part, part)
  {
    var s := before + part;
    assert s[|before|..][..|part|] == part;
  }

  lemma ContainsExtended(s: string, part: string, tail: string)
    requires Contains(s, part)
    ensures Contains(s + tail, part)
  {
    var i :| 0 <= i <= |s| && StartsWith(s[i..], part);
    assert (s + tail)[i..][..|part|] == s[i..][..|part|];
  }

  /** The non-empty e-mail addresses of the participants that are contacts. */
  function Recipients(participants: set<int>, contacts: map<int, string>): (r: set<string>)
    ensures forall e :: e in r <==>
              e != "" && exists id :: id in participants && id in contacts && contacts[id] == e
  {
    set id | id in participants && id in contacts && contacts[id] != "" :: contacts[id]
  }

  function SubjectPrefix(a: Action): string {
    match a
    case Created => "Meeting Created: "
    case Updated => "Meeting Updated: "
    case Cancelled => "Meeting Cancelled: "
  }

  function Subject(a: Action, title: string): string {
    SubjectPrefix(a) + title
  }

  /** Recovers the action and the title from a subject line. */
  function ParseSubject(s: string): Option<(Action, string)> {
    if StartsWith(s, SubjectPrefix(Created)) then Some((Created, s[|SubjectPrefix(Created)|..]))
    else if StartsWith(s, SubjectPrefix(Updated)) then Some((Updated, s[|SubjectPrefix(Updated)|..]))
    else if StartsWith(s, SubjectPrefix(Cancelled)) then Some((Cancelled, s[|SubjectPrefix(Cancelled)|..]))
    else None
  }

  /** A subject line names its action and its title unambiguously. */
  lemma SubjectRoundTrip(a: Action, title: string)
    ensures ParseSubject(Subject(a, title)) == Some((a, title))
  {
    var s := Subject(a, title);
    assert s[..|SubjectPrefix(a)|] == SubjectPrefix(a);
    assert s[|SubjectPrefix(a)|..] == title;
    match a
    case Created =>
    case Updated =>
      assert s[..17][8] == 'U';
      assert SubjectPrefix(Created)[8] == 'C';
    case Cancelled =>
      assert s[..17][9] == 'a';
      assert SubjectPrefix(Created)[9] == 'r';
      assert s[..17][8] == 'C';
      assert SubjectPrefix(Updated)[8] == 'U';
  }

  /** The message sentence, before any location clause; `previous` is the formatted old start of a reschedule. */
  function Sentence(a: Action, title: string, when: string, previous: Option<string>): string {
    match a
    case Created =>
      if previous.Some? then "Meeting '" + title + "' rescheduled from " + previous.value + " to " + when + "."
      else "Meeting '" + title + "' scheduled for " + when + "."
    case Updated => "Meeting '" + title + "' updated. New time: " + when + "."
    case Cancelled => "Meeting '" + title + "' scheduled for " + when + " has been cancelled."
  }

  /** A sentence, whatever follows it, mentions the start and, for a reschedule, the previous start. */
  lemma SentenceMentions(a: Action, title: string, when: string, previous: Option<string>, tail: string)
    ensures Contains(Sentence(a, title, when, previous) + tail, when)
    ensures a == Created && previous.Some? ==> Contains(Sentence(a, title, when, previous) + tail, previous.value)
  {
    var lead := "Meeting '" + title;
    var sentence := Sentence(a, title, when, previous);
    match a
    case Created =>
      if previous.Some? {
        var upToPrevious := lead + "' rescheduled from " + previous.value;
        ContainsSuffix(lead + "' rescheduled from ", previous.value);
        ContainsExtended(upToPrevious, previous.value, " to ");
        ContainsExtended(upToPrevious + " to ", previous.value, when);
        ContainsExtended(upToPrevious + " to " + when, previous.value, ".");
        ContainsSuffix(upToPrevious + " to ", when);
        ContainsExtended(upToPrevious + " to " + when, when, ".");
        assert sentence == upToPrevious + " to " + when + ".";
        ContainsExtended(sentence, previous.value, tail);
      } else {
        ContainsSuffix(lead + "' scheduled for ", when);
        ContainsExtended(lead + "' scheduled for " + when, when, ".");
        assert sentence == lead + "' scheduled for " + when + ".";
      }
      ContainsExtended(sentence, when, tail);
    case Updated =>
      ContainsSuffix(lead + "' updated. New time: ", when);
      ContainsExtended(lead + "' updated. New time: " + when, when, ".");
      assert sentence == lead + "' updated. New time: " + when + ".";
      ContainsExtended(sentence, when, tail);
    case Cancelled =>
      ContainsSuffix(lead + "' scheduled for ", when);
      ContainsExtended(lead + "' scheduled for " + when, when, " has been cancelled.");
      assert sentence == lead + "' scheduled for " + when + " has been cancelled.";
      ContainsExtended(sentence, when, tail);
  }

  /** A sentence, whatever follows it, opens with the quoted title. */
  lemma SentenceOpens(a: Action, title: string, when: string, previous: Option<string>, tail: string)
    ensures StartsWith(Sentence(a, title, when, previous) + tail, Sentence(a, title, when, previous))
    ensures StartsWith(Sentence(a, title, when, previous) + tail, "Meeting '" + title + "'")
  {
    var sentence := Sentence(a, title, when, previous);
    var lead := "Meeting '" + title + "'";
    assert (sentence + tail)[..|sentence|] == sentence;
    assert sentence[..|lead|] == lead;
    assert (sentence + tail)[..|lead|] == sentence[..|lead|];
  }

  predicate HasLocation(m: Meeting) {
    m.location.Some? && m.location.value != ""
  }

  function LocationClause(m: Meeting): string {
    if HasLocation(m) then " Location: " + m.location.value + "." else ""
  }

  function FormatPrevious(previous: Option<int>, formatTime: int -> string): Option<string> {
    if previous.Some? then Some(formatTime(previous.value)) else None
  }

  /**
   * The mail for `action` on `m`. `previous` is the start before a
   * reschedule; `formatTime` renders an instant in the server's local time.
   */
  function Compose(m: Meeting, action: Action, previous: Option<int>, contacts: map<int, string>,
                   formatTime: int -> string): (r: Mail)
    ensures r.NothingSent? <==> Recipients(m.participants, contacts) == {}
    ensures r.Sent? ==> r.recipients == Recipients(m.participants, contacts)
    ensures r.Sent? ==> ParseSubject(r.subject) == Some((action, m.title))
    ensures r.Sent? ==> StartsWith(r.body, "Meeting '" + m.title + "'")
    ensures r.Sent? && HasLocation(m) ==> EndsWith(r.body, " Location: " + m.location.value + ".")
    ensures r.Sent? ==> StartsWith(r.body, Sentence(action, m.title, formatTime(m.dateTime), FormatPrevious(previous, formatTime)))
    ensures r.Sent? && !HasLocation(m) ==>
              r.body == Sentence(action, m.title, formatTime(m.dateTime), FormatPrevious(previous, formatTime))
    ensures r.Sent? ==>
              r.body == Sentence(action, m.title, formatTime(m.dateTime), FormatPrevious(previous, formatTime)) + LocationClause(m)
    ensures r.Sent? ==> Contains(r.body, formatTime(m.dateTime))
    ensures r.Sent? && action == Created && previous.Some? ==> Contains(r.body, formatTime(previous.value))
  {
    var recipients := Recipients(m.participants, contacts);
    if recipients == {} then NothingSent
    else
      var when := formatTime(m.dateTime);
      var earlier := FormatPrevious(previous, formatTime);
      SubjectRoundTrip(action, m.title);
      SentenceOpens(action, m.title, when, earlier, LocationClause(m));
      SentenceMentions(action, m.title, when, earlier, LocationClause(m));
      Sent(recipients, Subject(action, m.title), Sentence(action, m.title, when, earlier) + LocationClause(m))
  }
}

=== FILE: options.dfy ===
/** Optional values: a JSON key that may be absent, a nullable column, a lookup that may miss. */
module Options {

  datatype Option<+T> = None | Some(value: T) {

    /** The carried value, or `default` when there is none. */
    function GetOr(default: T): T {
      match this
      case Some(v) => v
      case None => default
    }
  }
}

=== FILE: participants.dfy ===
/**
 * Reconciliation of a request's participant list: the integer entries of the
 * list, plus the caller's own contact. The list arrives as decoded JSON, so an
 * entry may be of any JSON type; only integers (and booleans, which the host
 * language counts as integers) survive.
 */
module Participants {
  import opened Options

  /** One entry of the decoded participant list. */
  datatype Entry = JInt(i: int) | JBool(b: bool) | JFloat(x: real) | JText(s: string) | JNull | JCompound

  /** The host language's integer test: integers and booleans pass. */
  predicate IsInt(e: Entry) {
    e.JInt? || e.JBool?
  }

  function IntValue(e: Entry): int
    requires IsInt(e)
  {
    if e.JInt? then e.i else if e.b then 1 else 0
  }

  /** The host language's equality between an entry and an integer id; a float equal in value counts. */
  predicate EqualsId(e: Entry, id: int) {
    match e
    case JInt(i) => i == id
    case JBool(b) => (if b then 1 else 0) == id
    case JFloat(x) => x == id as real
    case _ => false
  }

  /** The ids named by the integer entries; every other entry is dropped without complaint. */
  function IntIds(entries: seq<Entry>): (r: set<int>)
    ensures forall id :: id in r <==> exists e :: e in entries && IsInt(e) && IntValue(e) == id
  {
    set e | e in entries && IsInt(e) :: IntValue(e)
  }

  /**
   * The reconciliation as the handlers write it: the caller's id is appended
   * unless an entry already equals it, and only then are non-integers dropped.
   */
  function ReconcileAsWritten(entries: seq<Entry>, caller: Option<int>): set<int> {
    var withCaller :=
      if caller.Some? && !(exists e :: e in entries && EqualsId(e, caller.value))
      then entries + [JInt(caller.value)]
      else entries;
    IntIds(withCaller)
  }

  /** The reconciliation as intended: the integer entries, and the caller always. */
  function Reconcile(entries: seq<Entry>, caller: Option<int>): (r: set<int>)
    ensures caller.Some? ==> caller.value in r
    ensures forall id :: id in r <==>
              (exists e :: e in entries && IsInt(e) && IntValue(e) == id) || caller == Some(id)
  {
    IntIds(entries) + (if caller.Some? then {caller.value} else {})
  }

  /** Adding an entry that is not an integer changes nothing. */
  lemma NonIntegerIgnored(entries: seq<Entry>, e: Entry, caller: Option<int>)
    requires !IsInt(e)
    ensures Reconcile(entries + [e], caller) == Reconcile(entries, caller)
  {
    assert forall x :: x in entries + [e] && IsInt(x) ==> x in entries;
    assert IntIds(entries + [e]) == IntIds(entries);
  }

  /** No float entry equals the caller's id: the one case where the two readings part. */
  predicate NoFloatCaller(entries: seq<Entry>, caller: Option<int>) {
    caller.Some? ==> forall e :: e in entries && e.JFloat? ==> e.x != caller.value as real
  }

  /** Both readings agree unless a float entry equals the caller's id. */
  lemma {:induction false} AsWrittenAgrees(entries: seq<Entry>, caller: Option<int>)
    requires NoFloatCaller(entries, caller)
    ensures ReconcileAsWritten(entries, caller) == Reconcile(entries, caller)
  {
    if caller.Some? {
      var c := caller.value;
      if exists e :: e in entries && EqualsId(e, c) {
        var e :| e in entries && EqualsId(e, c);
        assert IsInt(e) && IntValue(e) == c;
        assert c in IntIds(entries);
      } else {
        var appended := entries + [JInt(c)];
        assert forall x :: x in appended <==> x in entries || x == JInt(c);
        assert JInt(c) in appended && IsInt(JInt(c)) && IntValue(JInt(c)) == c;
        forall id ensures id in IntIds(appended) <==> id in IntIds(entries) + {c} {
          if id in IntIds(appended) && id != c {
            var x :| x in appended && IsInt(x) && IntValue(x) == id;
            assert x in entries;
          }
        }
      }
    }
  }

  /**
   * When a float entry equals the caller's id, the as-written result is the
   * intended one less the caller, unless an integer entry names the caller too.
   */
  lemma FloatCallerLeftOut(entries: seq<Entry>, caller: Option<int>)
    requires !NoFloatCaller(entries, caller)
    ensures caller.Some?
    ensures ReconcileAsWritten(entries, caller) + {caller.value} == Reconcile(entries, caller)
    ensures caller.value in ReconcileAsWritten(entries, caller) <==>
              exists e :: e in entries && IsInt(e) && IntValue(e) == caller.value
  {
    var e :| e in entries && e.JFloat? && e.x == caller.value as real;
    assert EqualsId(e, caller.value);
  }

  /** A float entry equal to the caller's id keeps the caller out of the as-written result. */
  lemma AsWrittenDropsCaller()
    ensures ReconcileAsWritten([JFloat(9.0)], Some(9)) == {}
    ensures Reconcile([JFloat(9.0)], Some(9)) == {9}
    ensures ReconcileAsWritten([JInt(5), JFloat(9.0)], Some(9)) == {5}
    ensures Reconcile([JInt(5), JFloat(9.0)], Some(9)) == {5, 9}
  {
    assert EqualsId(JFloat(9.0), 9);
    assert IntIds([JFloat(9.0)]) == {};
    var two := [JInt(5), JFloat(9.0)];
    assert EqualsId(two[1], 9);
    assert IntIds(two) == {5} by {
      assert two[0] in two && IsInt(two[0]);
    }
  }
}

=== FILE: sets.dfy ===
/** Facts about finite sets of ids that the listing order and the counts rely on. */
module SetFacts {

  /** A set that is not empty has a member. */
  lemma HasMember(s: set<int>)
    ensures s == {} || exists y :: y in s
  {
    if forall y :: y !in s {
      assert s == {};
    }
  }

  /** A subset is no larger than its superset. */
  lemma {:induction false} SubsetSize(a: set<int>, b: set<int>)
    requires a <= b
    ensures |a| <= |b|
  {
    assert b == a + (b - a);
  }
}

=== FILE: store.dfy ===
/**
 * The in-memory store the request handlers and the sweeper share: the meeting
 * table keyed by id, the contact table reduced to each contact's e-mail
 * address, and the next id the table's auto-increment will hand out.
 * Also the effect on meetings of removing a deal, a company or a contact.
 */
module Store {
  import opened Options
  import opened Meetings

  datatype Db = Db(meetings: map<int, Meeting>, contacts: map<int, string>, nextId: int)

  /** Contact e-mail addresses are unique, as the contact table declares. */
  predicate UniqueEmails(contacts: map<int, string>) {
    forall a, b :: a in contacts && b in contacts && contacts[a] == contacts[b] ==> a == b
  }

  /** Meeting ids are positive and below the next id; contact e-mails are unique. */
  predicate Valid(db: Db) {
    && db.nextId >= 1
    && (forall id :: id in db.meetings ==> 1 <= id < db.nextId)
    && UniqueEmails(db.contacts)
  }

  /** The contact whose e-mail is the caller's, if there is one. */
  function CallerContact(contacts: map<int, string>, email: string): (r: Option<int>)
    requires UniqueEmails(contacts)
    ensures r.Some? ==> r.value in contacts && contacts[r.value] == email
    ensures r.None? ==> forall id :: id in contacts ==> contacts[id] != email
  {
    if exists id :: id in contacts && contacts[id] == email then
      var id :| id in contacts && contacts[id] == email;
      Some(id)
    else
      None
  }

  /** Removing a deal nulls the deal reference of every meeting that had it and touches nothing else. */
  function RemoveDeal(db: Db, dealId: int): (r: Db)
    ensures r.contacts == db.contacts && r.nextId == db.nextId
    ensures r.meetings.Keys == db.meetings.Keys
    ensures forall id :: id in r.meetings ==> r.meetings[id].deal != Some(dealId)
    ensures forall id :: id in db.meetings ==>
              if db.meetings[id].deal == Some(dealId)
              then r.meetings[id] == db.meetings[id].(deal := None)
              else r.meetings[id] == db.meetings[id]
  {
    var ms := map id | id in db.meetings ::
      if db.meetings[id].deal == Some(dealId) then db.meetings[id].(deal := None) else db.meetings[id];
    db.(meetings := ms)
  }

  /** Removing a company nulls the company reference of every meeting that had it and touches nothing else. */
  function RemoveCompany(db: Db, companyId: int): (r: Db)
    ensures r.contacts == db.contacts && r.nextId == db.nextId
    ensures r.meetings.Keys == db.meetings.Keys
    ensures forall id :: id in r.meetings ==> r.meetings[id].company != Some(companyId)
    ensures forall id :: id in db.meetings ==>
              if db.meetings[id].company == Some(companyId)
              then r.meetings[id] == db.meetings[id].(company := None)
              else r.meetings[id] == db.meetings[id]
  {
    var ms := map id | id in db.meetings ::
      if db.meetings[id].company == Some(companyId) then db.meetings[id].(company := None) else db.meetings[id];
    db.(meetings := ms)
  }

  /** Removing a contact drops it from every participant set; no meeting is removed. */
  function RemoveContact(db: Db, contactId: int): (r: Db)
    requires Valid(db)
    ensures Valid(r)
    ensures r.contacts == db.contacts - {contactId} && r.nextId == db.nextId
    ensures r.meetings.Keys == db.meetings.Keys
    ensures forall id :: id in db.meetings ==>
              && r.meetings[id].participants == db.meetings[id].participants - {contactId}
              && r.meetings[id] == db.meetings[id].(participants := r.meetings[id].participants)
  {
    var ms := map id | id in db.meetings ::
      db.meetings[id].(participants := db.meetings[id].participants - {contactId});
    Db(ms, db.contacts - {contactId}, db.nextId)
  }
}

=== FILE: sweeper.dfy ===
/**
 * The periodic completion sweep. Every meeting that is scheduled or in
 * progress and whose start and end both lie before `now` becomes completed;
 * nothing else in the table changes.
 */
module Sweeper {
  import opened Options
  import opened Meetings
  import opened Listing
  import SetFacts

  /** The sweep's selection: an open status, a past start and a past end. */
  predicate Due(m: Meeting, now: int) {
    (m.status == Scheduled || m.status == InProgress) && m.dateTime < now && EndTime(m) < now
  }

  /** One meeting after a sweep at `now`. */
  function Tick(m: Meeting, now: int): Meeting {
    if Due(m, now) then m.(status := Completed) else m
  }

  /** The table after one sweep at `now`. */
  function Sweep(meetings: map<int, Meeting>, now: int): (r: map<int, Meeting>)
    ensures r.Keys == meetings.Keys
    ensures forall id :: id in meetings && Due(meetings[id], now) ==> r[id].status == Completed
    ensures forall id :: id in meetings && !Due(meetings[id], now) ==> r[id] == meetings[id]
    ensures forall id :: id in meetings ==> r[id] == meetings[id].(status := r[id].status)
  {
    map id | id in meetings :: Tick(meetings[id], now)
  }

  /** The members of `ids` whose meeting is due at `now`. */
  function DueAmong(meetings: map<int, Meeting>, ids: set<int>, now: int): set<int>
    requires ids <= meetings.Keys
  {
    set id | id in ids && Due(meetings[id], now)
  }

  /** The ids whose status differs between two tables over the same ids. */
  function StatusChanged(before: map<int, Meeting>, after: map<int, Meeting>): set<int> {
    set id | id in before && id in after && before[id].status != after[id].status
  }

  /** The ids of completed meetings. */
  function CompletedIds(meetings: map<int, Meeting>): set<int> {
    set id | id in meetings && meetings[id].status == Completed
  }

  /** A sweep changes exactly the status of the due meetings. */
  lemma SweepChangesDue(meetings: map<int, Meeting>, now: int)
    ensures StatusChanged(meetings, Sweep(meetings, now)) == DueAmong(meetings, meetings.Keys, now)
  {
  }

  /** Meetings already completed or cancelled are left as they are. */
  lemma SweepLeavesTerminal(meetings: map<int, Meeting>, now: int, id: int)
    requires id in meetings && IsTerminal(meetings[id].status)
    ensures Sweep(meetings, now)[id] == meetings[id]
  {
  }

  /** Meetings starting at or after `now`, or ending at or after it, are left as they are. */
  lemma SweepLeavesCurrent(meetings: map<int, Meeting>, now: int, id: int)
    requires id in meetings && (meetings[id].dateTime >= now || EndTime(meetings[id]) >= now)
    ensures Sweep(meetings, now)[id] == meetings[id]
  {
  }

  /** After a sweep nothing is due any more. */
  lemma {:induction false} NothingDueAfterSweep(meetings: map<int, Meeting>, now: int)
    ensures forall id :: id in meetings ==> !Due(Sweep(meetings, now)[id], now)
  {
    var r := Sweep(meetings, now);
    forall id | id in meetings ensures !Due(r[id], now) {
      if Due(meetings[id], now) {
        assert r[id].status == Completed;
      }
    }
  }

  /**
   * A sweep at a later instant subsumes one at an earlier instant; sweeping
   * twice at the same instant is the same as sweeping once.
   */
  lemma {:induction false} SweepAbsorbs(meetings: map<int, Meeting>, earlier: int, later: int)
    requires earlier <= later
    ensures Sweep(Sweep(meetings, earlier), later) == Sweep(meetings, later)
  {
    var once := Sweep(meetings, earlier);
    var twice := Sweep(once, later);
    var direct := Sweep(meetings, later);
    forall id | id in meetings ensures twice[id] == direct[id] {
      var m := meetings[id];
      if Due(m, earlier) {
        assert Due(m, later);
        assert once[id] == m.(status := Completed);
        assert !Due(once[id], later);
      } else {
        assert once[id] == m;
      }
    }
  }

  lemma SweepIdempotent(meetings: map<int, Meeting>, now: int)
    ensures Sweep(Sweep(meetings, now), now) == Sweep(meetings, now)
  {
    SweepAbsorbs(meetings, now, now);
  }

  /** A later sweep completes every meeting an earlier sweep completes. */
  lemma {:induction false} SweepMonotone(meetings: map<int, Meeting>, earlier: int, later: int)
    requires earlier <= later
    ensures CompletedIds(Sweep(meetings, earlier)) <= CompletedIds(Sweep(meetings, later))
  {
    var a := Sweep(meetings, earlier);
    var b := Sweep(meetings, later);
    forall id | id in CompletedIds(a) ensures id in CompletedIds(b) {
      if Due(meetings[id], earlier) {
        assert Due(meetings[id], later);
      } else {
        assert a[id] == meetings[id];
      }
    }
  }

  /** No meeting is upcoming merely because a sweep ran: a swept meeting started in the past. */
  lemma SweptNotUpcoming(meetings: map<int, Meeting>, now: int, id: int)
    requires id in meetings && Due(meetings[id], now)
    ensures !IsUpcoming(meetings[id], now)
    ensures !IsUpcoming(Sweep(meetings, now)[id], now)
  {
  }

  /** Extending the visited ids by one adds it to the due ones exactly when it is due. */
  lemma DueAmongStep(meetings: map<int, Meeting>, ids: set<int>, id: int, now: int)
    requires ids <= meetings.Keys && id in meetings && id !in ids
    ensures |DueAmong(meetings, ids + {id}, now)| ==
            |DueAmong(meetings, ids, now)| + (if Due(meetings[id], now) then 1 else 0)
  {
    if Due(meetings[id], now) {
      assert DueAmong(meetings, ids + {id}, now) == DueAmong(meetings, ids, now) + {id};
    } else {
      assert DueAmong(meetings, ids + {id}, now) == DueAmong(meetings, ids, now);
    }
  }

  /** A table that ticks every meeting is the swept table. */
  lemma TickedIsSwept(meetings: map<int, Meeting>, r: map<int, Meeting>, now: int)
    requires r.Keys == meetings.Keys
    requires forall id :: id in meetings ==> r[id] == Tick(meetings[id], now)
    ensures r == Sweep(meetings, now)
  {
    var s := Sweep(meetings, now);
    assert r.Keys == s.Keys;
    forall id | id in r ensures r[id] == s[id] {
      assert s[id] == Tick(meetings[id], now);
    }
  }

  /**
   * Part way through a sweep: the `done` meetings are ticked, the `todo`
   * ones untouched, and `count` is the number of due meetings among `done`.
   */
  predicate Partway(meetings: map<int, Meeting>, r: map<int, Meeting>, todo: set<int>, done: set<int>,
                    count: int, now: int)
  {
    && todo + done == meetings.Keys && todo !! done
    && r.Keys == meetings.Keys
    && (forall id :: id in todo ==> r[id] == meetings[id])
    && (forall id :: id in done ==> r[id] == Tick(meetings[id], now))
    && count == |DueAmong(meetings, done, now)|
  }

  /** Visiting one more meeting keeps a partial sweep partial. */
  lemma PartwayStep(meetings: map<int, Meeting>, r: map<int, Meeting>, todo: set<int>, done: set<int>,
                    count: int, now: int, id: int)
    requires Partway(meetings, r, todo, done, count, now) && id in todo
    ensures Partway(meetings, r[id := Tick(r[id], now)], todo - {id}, done + {id},
                    count + (if Due(r[id], now) then 1 else 0), now)
  {
    DueAmongStep(meetings, done, id, now);
    var r' := r[id := Tick(r[id], now)];
    forall k | k in done + {id} ensures r'[k] == Tick(meetings[k], now) {
      if k != id { assert k in done; }
    }
  }

  /**
   * One sweep tick as the scheduler runs it: visit each candidate, complete
   * the due ones, and count how many were updated.
   */
  method UpdatePastMeetings(meetings: map<int, Meeting>, now: int) returns (r: map<int, Meeting>, updatedCount: nat)
    ensures r == Sweep(meetings, now)
    ensures updatedCount == |StatusChanged(meetings, r)|
  {
    r := meetings;
    updatedCount := 0;
    var todo := meetings.Keys;
    ghost var done: set<int> := {};
    while todo != {}
      invariant Partway(meetings, r, todo, done, updatedCount, now)
      decreases todo
    {
      SetFacts.HasMember(todo);
      var id :| id in todo;
      PartwayStep(meetings, r, todo, done, updatedCount, now, id);
      var m := r[id];
      if Due(m, now) {
        m := m.(status := Completed);
        updatedCount := updatedCount + 1;
      }
      r := r[id := m];
      todo := todo - {id};
      done := done + {id};
    }
    assert done == meetings.Keys;
    TickedIsSwept(meetings, r, now);
    SweepChangesDue(meetings, now);
  }

  /**
   * The earliest and the latest instant the host language's date-time type
   * holds (the first second of year 1 and the last of year 9999), in seconds
   * from the epoch. Adding a duration that leaves this range raises.
   */
  const MinInstant := -62135596800
  const MaxInstant := 253402300799

  predicate EndRepresentable(m: Meeting) {
    MinInstant <= EndTime(m) <= MaxInstant
  }

  /** The job's candidate query: an open status and a start before `now`. */
  predicate Candidate(m: Meeting, now: int) {
    (m.status == Scheduled || m.status == InProgress) && m.dateTime < now
  }

  /**
   * The job's loop as written: the meetings are visited in the order `ids`
   * gives; the first candidate whose end cannot be computed raises, and the
   * single handler around the loop ends the run there, keeping what was saved.
   */
  function SweepInOrderAsWritten(meetings: map<int, Meeting>, ids: seq<int>, now: int): (r: map<int, Meeting>)
    requires forall i :: 0 <= i < |ids| ==> ids[i] in meetings
    ensures r.Keys == meetings.Keys
    decreases |ids|
  {
    if ids == [] then meetings
    else
      var m := meetings[ids[0]];
      if Candidate(m, now) && !EndRepresentable(m) then meetings
      else SweepInOrderAsWritten(meetings[ids[0] := Tick(m, now)], ids[1..], now)
  }

  /** The job as written, visiting the candidates in the table's start-time order. */
  function UpdatePastMeetingsAsWritten(meetings: map<int, Meeting>, now: int): map<int, Meeting> {
    SweepInOrderAsWritten(meetings, ByDateTime(meetings), now)
  }

  /** The table with the meetings `ids` names ticked and every other left as it is. */
  function TickOn(meetings: map<int, Meeting>, ids: seq<int>, now: int): map<int, Meeting> {
    map k | k in meetings :: if k in ids then Tick(meetings[k], now) else meetings[k]
  }

  /** With every candidate's end representable, the loop as written ticks every meeting it visits. */
  lemma {:induction false} InOrderTicksAll(meetings: map<int, Meeting>, ids: seq<int>, now: int)
    requires forall i :: 0 <= i < |ids| ==> ids[i] in meetings
    requires forall i, j :: 0 <= i < j < |ids| ==> ids[i] != ids[j]
    requires forall i :: 0 <= i < |ids| && Candidate(meetings[ids[i]], now) ==> EndRepresentable(meetings[ids[i]])
    ensures SweepInOrderAsWritten(meetings, ids, now) == TickOn(meetings, ids, now)
    decreases |ids|
  {
    if ids != [] {
      var k := ids[0];
      var rest := ids[1..];
      var next := meetings[k := Tick(meetings[k], now)];
      assert forall i :: 0 <= i < |rest| ==> rest[i] == ids[i + 1] && rest[i] != k;
      assert forall i :: 0 <= i < |rest| ==> next[rest[i]] == meetings[rest[i]];
      InOrderTicksAll(next, rest, now);
      var a := TickOn(next, rest, now);
      var b := TickOn(meetings, ids, now);
      assert forall x :: x in ids <==> x == k || x in rest;
      assert k !in rest;
      assert a.Keys == b.Keys;
      forall x | x in a ensures a[x] == b[x] {
        if x != k {
          assert next[x] == meetings[x];
        }
      }
    }
  }

  /** When every candidate's end is representable, the job as written is the sweep. */
  lemma AsWrittenIsSweepWhenRepresentable(meetings: map<int, Meeting>, now: int)
    requires forall id :: id in meetings && Candidate(meetings[id], now) ==> EndRepresentable(meetings[id])
    ensures UpdatePastMeetingsAsWritten(meetings, now) == Sweep(meetings, now)
  {
    var ids := ByDateTime(meetings);
    ListsEveryMeeting(meetings);
    InOrderTicksAll(meetings, ids, now);
    TickOnEveryIsSweep(meetings, ids, now);
  }

  /** Ticking every meeting is the sweep. */
  lemma TickOnEveryIsSweep(meetings: map<int, Meeting>, ids: seq<int>, now: int)
    requires forall k :: k in meetings ==> k in ids
    ensures TickOn(meetings, ids, now) == Sweep(meetings, now)
  {
    var a := TickOn(meetings, ids, now);
    var b := Sweep(meetings, now);
    assert a.Keys == b.Keys;
    forall x | x in a ensures a[x] == b[x] {
      assert x in ids;
    }
  }

  /**
   * A meeting stored with a duration of minus two billion minutes stops every
   * run before the due meeting listed after it, which the sweep completes.
   */
  lemma OverflowStopsLaterMeetings()
    ensures var broken := Meeting("Old", "", 0, -2000000000, Some(""), InPerson, Scheduled, None, None, {});
            var due := Meeting("Standup", "", 100, 1, Some(""), InPerson, Scheduled, None, None, {});
            var table := map[1 := broken, 2 := due];
            && Due(due, 1000)
            && UpdatePastMeetingsAsWritten(table, 1000)[2].status == Scheduled
            && Sweep(table, 1000)[2].status == Completed
  {
    var broken := Meeting("Old", "", 0, -2000000000, Some(""), InPerson, Scheduled, None, None, {});
    var due := Meeting("Standup", "", 100, 1, Some(""), InPerson, Scheduled, None, None, {});
    var table := map[1 := broken, 2 := due];
    EarliestListedFirst(table, 1);
    assert !EndRepresentable(broken);
  }
}
